=== FILE: README.md ===
# Espresso machine: resource accounting, in Dafny

A model of the core of a PHP espresso-machine simulator: a bean hopper that
stores whole spoons, a water tank that stores litres, and the machine that owns
both, brews, descales and derives the status shown on its display. Everything is
an immutable value; each operation is a pure function.

- `Results` (`results.dfy`): the error kinds and the `Result`/`Option`
  wrappers. Error kinds map to the exception classes like this:
  - `ContainerFull` is `ContainerFullException`. It is raised by both containers' add and by the hopper's use.
  - `NotEnough` is the `ContainerException` of a tank asked for more than it holds.
  - `MainsSupply` is the `ContainerException` that `addWater` raises on mains supply.
  - `NoContainer` covers a missing container. That is the `EspressoMachineException` of the machine's bean calls, the `ContainerException` of `getWater`, and the crash PHP raises on a call through null.
  - `NeedsDescale` is the `EspressoMachineException` of the brew guard.
  - `NoBeans` is `NoBeansException`.
  - `NoWater` is `NoWaterException`.
- `Settings` (`settings.dfy`): the configuration as an explicit `Config` record
  with the default values of `config/espresso.php`, instead of ambient lookups.
- `Beans`, `Water` (`beans.dfy`, `water.dfy`): the two bounded stores. A
  failed add or use leaves the container as it was.
- `Espresso` (`machine.dfy`): the machine. Its mutating calls return an
  `Outcome`: the machine as the call leaves it, together with the value returned
  or the error raised. This is needed because `makeEspressos` can fail after it
  has already taken the beans.
- `Numbers` (`numbers.dfy`): truncating division as `intval(bcdiv(..))` does it.
- `Display` (`status.dfy`): `getStatus` in its priority order, plus lemmas on
  what each status promises about the next brew or descale.
- `StatusText` (`text.dfy`): the status strings and a reader for them. Reading
  a string back always gives the same status.
- `Traces` (`traces.dfy`): sequences of calls. Under sane constants, and for
  calls with non-negative amounts that attach only in-bounds containers, it
  shows that the container bounds hold and that the descale accumulator never
  rises above zero.
- `Scenarios` (`scenarios.dfy`): the controller's start-up sequence (attach
  both containers, fill each to capacity) and worked examples on it.

Quirks of the code that the model keeps on purpose:

- `makeEspressos` LOWERS `litresSinceLastDescale` by the litres it brews.
  Under sane constants, the accumulator therefore never becomes positive from
  the initial 0, for calls with non-negative amounts that attach only in-bounds
  containers. In that case the brew guard and the status's descale branch are
  never reached. Nothing checks the quantity's sign, and the controller accepts
  any integer. A negative brew therefore raises the accumulator and can trip
  both (`Scenarios.NegativeBrewTripsGuard`).
- A water shortage while brewing is not turned into NoWater. The catch around
  the water debit names `NoBeansException`, so the tank's own error
  (`NotEnough`) propagates.
- Beans taken before a failing water debit are not given back.
- The brew guard compares with `>` and the status with `>=`. At exactly the
  threshold, the display asks for a descale while a brew still runs.
- When the hopper has too few beans, it raises `ContainerFullException`.
- `useWater` returns the volume left in the tank, not the volume drawn.
- Mains supply only blocks `addWater`. Brewing and descaling still draw from the
  tank.

Where a docblock and the code disagree, the model follows the code. The
docblocks of `makeEspresso` and `makeDoubleEspresso`
(`EspressoMachineImplementation.php:178` and `:189`) list `NoWaterException`.
But the catch around the water debit (line 164) names `NoBeansException`, so
the tank's `ContainerException` passes through (`NotEnough` here).

## Model

| member | source | states |
|---|---|---|
| Beans.New | app/Implementations/BeansContainerImplementation.php:21-31 | a new container holds 0 spoons and all of its capacity (the argument, 50 by default) is free; it is within bounds iff the capacity is non-negative |
| Beans.AddBeans | app/Implementations/BeansContainerImplementation.php:33-42 | succeeds iff n fits in capacity minus stored; on success stored grows by exactly n and capacity is unchanged; otherwise ContainerFull; with n >= 0 the bounds are kept |
| Beans.UseBeans | app/Implementations/BeansContainerImplementation.php:51-65 | succeeds iff n <= stored, returning n and lowering stored by n; otherwise ContainerFull (the drain-all code after the throw never runs); with n >= 0 the bounds are kept |
| Beans.GetBeans | app/Implementations/BeansContainerImplementation.php:72-75 | the stored spoons, between 0 and capacity for a valid container |
| Beans.AddThenUse | app/Implementations/BeansContainerImplementation.php:33-65 | using what was just added restores the container and returns the same amount |
| Beans.UseThenAdd | app/Implementations/BeansContainerImplementation.php:33-65 | adding back what was just used restores the container |
| Beans.OverfillRefused | app/Implementations/BeansContainerImplementation.php:33-42 | after adding n to a new container, adding capacity - n + 1 fails with ContainerFull and n spoons remain |
| Beans.NegativeAmountsBreakBounds | app/Implementations/BeansContainerImplementation.php:33-65 | with no sign check, a negative add or use succeeds and takes a valid container out of bounds |
| Water.New | app/Implementations/WaterContainerImplementation.php:21-32 | a new tank holds 0 litres and all of its capacity (the argument, 2 by default) is free; it is within bounds iff the capacity is non-negative |
| Water.AddWater | app/Implementations/WaterContainerImplementation.php:42-50 | succeeds iff l fits in capacity minus stored; on success stored grows by exactly l; otherwise ContainerFull; with l >= 0 the bounds are kept |
| Water.UseWater | app/Implementations/WaterContainerImplementation.php:59-69 | succeeds iff l <= stored, lowering stored by l and returning the NEW stored volume; otherwise NotEnough (ContainerException); with l >= 0 the bounds are kept |
| Water.GetWater | app/Implementations/WaterContainerImplementation.php:76-79 | the stored litres, between 0 and capacity for a valid tank |
| Water.AddThenUse | app/Implementations/WaterContainerImplementation.php:42-69 | drawing what was just added restores the tank and returns the level before the add |
| Water.UseThenAdd | app/Implementations/WaterContainerImplementation.php:42-69 | adding back what was just drawn restores the tank |
| Water.NegativeAmountsBreakBounds | app/Implementations/WaterContainerImplementation.php:42-69 | with no sign check, a negative add or use succeeds and takes a valid tank out of bounds |
| Espresso.New | app/Implementations/EspressoMachineImplementation.php:37-48 | a new machine has no containers, the given mains flag (off by default) and an accumulator of 0 |
| Espresso.SetBeansContainer | app/Implementations/EspressoMachineImplementation.php:242-245 | after attaching, the machine has a bean container (even an empty one) and returns it; nothing else changes |
| Espresso.SetWaterContainer | app/Implementations/EspressoMachineImplementation.php:258-261 | after attaching, the machine has a water container (even an empty one) and returns it; nothing else changes |
| Espresso.HasBeansContainer | app/Implementations/EspressoMachineImplementation.php:284-287 | true exactly when the getter hands back a container; attaching any container, an empty one included, makes it true (Espresso.SetBeansContainer) |
| Espresso.HasWaterContainer | app/Implementations/EspressoMachineImplementation.php:267-270 | true exactly when the getter hands back a tank; attaching any tank, an empty one included, makes it true (Espresso.SetWaterContainer) |
| Espresso.GetBeansContainer | app/Implementations/EspressoMachineImplementation.php:250-253 | the attached container, or none; the machine's getBeans reports this container's spoons, or NoContainer when there is none |
| Espresso.GetWaterContainer | app/Implementations/EspressoMachineImplementation.php:275-278 | the attached tank, or none; the machine's getWater reports this tank's litres, or NoContainer when there is none |
| Espresso.AddBeans | app/Implementations/EspressoMachineImplementation.php:50-56 | without a bean container, NoContainer and no change; otherwise succeeds iff n fits in the room left, and a refusal is ContainerFull; a failure changes nothing |
| Espresso.UseBeans | app/Implementations/EspressoMachineImplementation.php:65-71 | without a bean container, NoContainer; otherwise succeeds iff n <= stored and lowers the hopper by n; a shortage is ContainerFull and changes nothing |
| Espresso.GetBeans | app/Implementations/EspressoMachineImplementation.php:79-82 | the hopper's spoons when one is attached; NoContainer otherwise |
| Espresso.AddWater | app/Implementations/EspressoMachineImplementation.php:93-100 | on mains supply, fails with MainsSupply for every amount and changes nothing; otherwise needs a tank (NoContainer without one) and succeeds iff the amount fits, and a refusal is ContainerFull; a failure changes nothing |
| Espresso.UseWater | app/Implementations/EspressoMachineImplementation.php:110-113 | draws from the tank even on mains supply; succeeds iff l <= stored and returns the volume left; a shortage is NotEnough and changes nothing |
| Espresso.GetWater | app/Implementations/EspressoMachineImplementation.php:120-128 | the tank's litres when one is attached; NoContainer otherwise |
| Espresso.Descale | app/Implementations/EspressoMachineImplementation.php:139-147 | with a tank, succeeds iff it holds at least the descale volume; success draws that volume and resets the accumulator to 0; failure is NoWater and changes nothing |
| Espresso.MakeEspressos | app/Implementations/EspressoMachineImplementation.php:150-173 | guard first (accumulator > threshold: NeedsDescale, no change); too few beans: NoBeans, no change; beans taken then water short: NotEnough with the beans still taken; success iff guard clear and both debits fit, and then beans, water and the accumulator all drop by the brew's amounts and the litres brewed are returned |
| Espresso.MakeEspresso | app/Implementations/EspressoMachineImplementation.php:182-185 | a brew of one, as makeEspressos(1): accumulator past the threshold gives NeedsDescale with no change; no bean container gives NoContainer, too few beans gives NoBeans, both with no change; beans taken then the tank missing or short gives NoContainer or NotEnough with the beans still taken; succeeds iff the guard is clear, both containers are attached and one espresso's beans and water are there, and then beans and water drop by one espresso's amounts, the accumulator drops by its litres and those litres are returned |
| Espresso.MakeDoubleEspresso | app/Implementations/EspressoMachineImplementation.php:193-196 | a brew of two, as makeEspressos(2), with the same guard, errors and beans-kept-on-water-shortage as a brew of one; succeeds iff the guard is clear, both containers are attached and twice one espresso's beans and water are there, and then beans, water and the accumulator drop by twice one espresso's amounts and twice its litres are returned |
| Espresso.DoubleIsTwoSingles | app/Implementations/EspressoMachineImplementation.php:182-196 | with non-negative rates, a successful double espresso equals two single espressos in a row: both succeed, together make the same litres and leave the same machine |
| Numbers.Trunc | app/Implementations/EspressoMachineImplementation.php:231-234 | the integer toward zero within distance 1 of x |
| Numbers.Quotient | app/Implementations/EspressoMachineImplementation.php:231-234 | the quotient x / d truncated toward zero, for any sign; for x >= 0 and d > 0, a non-negative k with k*d <= x < (k+1)*d |
| Numbers.QuotientIsLargestFit | app/Implementations/EspressoMachineImplementation.php:231-235 | n*d <= x iff n <= the truncated quotient, for every n |
| Numbers.Min | app/Implementations/EspressoMachineImplementation.php:235 | a lower bound of both arguments that equals one of them |
| Display.GetStatus | app/Implementations/EspressoMachineImplementation.php:210-238 | fails (NoContainer) exactly when a branch taken needs a missing container; "Descale needed" only in the `>=` descale branch, and always there on mains supply; never "Add water" on mains supply; a count only when there are enough beans and (on mains or) enough water |
| Display.BrewFitsIffWithinWorth | app/Implementations/EspressoMachineImplementation.php:231-235 | when the guard is clear, a brew of q succeeds iff q is at most the minimum of the two truncated quotients |
| Display.DisplayedCountIsBrewLimit | app/Implementations/EspressoMachineImplementation.php:210-238 | the count "N Espressos Left" is never negative, and a brew of q succeeds iff q <= N |
| Display.BrewableShowsCount | app/Implementations/EspressoMachineImplementation.php:219-237 | outside the descale branch, if one espresso can be brewed, the display shows a count of at least 1 |
| Display.StatusNamesWhatIsShort | app/Implementations/EspressoMachineImplementation.php:219-237 | outside the descale branch with both containers attached: "Add beans and water" iff neither one espresso's beans nor its water can be taken; "Add beans" iff only the beans are short; "Add water" iff only the water is short and the machine is off mains; a count iff the beans suffice and (on mains or) the water does |
| Display.AddBeansMeansNoBeans | app/Implementations/EspressoMachineImplementation.php:219-225 | "Add beans" or "Add beans and water" means one espresso fails with NoBeans and changes nothing |
| Display.NoBeansShowsBeanStatus | app/Implementations/EspressoMachineImplementation.php:219-225 | outside the descale branch with a tank attached, a one-espresso NoBeans means the status is "Add beans" or "Add beans and water" |
| Display.AddWaterMeansBrewShort | app/Implementations/EspressoMachineImplementation.php:227-229 | "Add water" outside the descale branch means one espresso fails with NotEnough after taking its beans |
| Display.DescaleStatusPredictsDescale | app/Implementations/EspressoMachineImplementation.php:212-217 | in the descale branch off mains, "Add water" iff descaling would fail with NoWater, and "Descale needed" iff it would succeed |
| StatusText.Message | app/Implementations/EspressoMachineImplementation.php:214-237 | a count is shown as its number followed by " Espressos Left" |
| StatusText.ReadNatText | app/Implementations/EspressoMachineImplementation.php:237 | the decimal digits of a natural number read back to that number |
| StatusText.ReadIntText | app/Implementations/EspressoMachineImplementation.php:237 | an interpolated integer, negative ones included, reads back to that integer |
| StatusText.ReadMessageInvertsMessage | app/Implementations/EspressoMachineImplementation.php:210-238 | every status string reads back to the status it was made from |
| StatusText.MessagesDistinct | app/Implementations/EspressoMachineImplementation.php:210-238 | different statuses are shown as different strings |
| Traces.StepKeepsHealthy | app/Implementations/EspressoMachineImplementation.php:139-173 | one call with non-negative amounts keeps the attached containers in bounds and the accumulator <= 0 |
| Traces.RunKeepsHealthy | app/Implementations/EspressoMachineImplementation.php:139-173 | any sequence of such calls keeps the containers in bounds and the accumulator <= 0 |
| Traces.BrewGuardNeverTrips | app/Implementations/EspressoMachineImplementation.php:153-155 | starting from a new machine, such calls never lead to a brew refused with NeedsDescale |
| Traces.DescaleNeverShown | app/Implementations/EspressoMachineImplementation.php:212-217 | starting from a new machine, such calls never reach the status's descale branch, so "Descale needed" never shows |
| Scenarios.Boot | app/Http/Controllers/EspressoController.php:25-29 | start-up never fails; it leaves a machine off mains with both containers full to their configured capacity and an accumulator of 0 |
| Scenarios.BootRunsBootCalls | app/Http/Controllers/EspressoController.php:25-29 | start-up is the four controller calls run in order on a new machine |
| Scenarios.BootIsHealthy | app/Http/Controllers/EspressoController.php:25-29 | under sane constants the started machine satisfies the trace invariant |
| Scenarios.ServedMachineNeverNeedsDescale | app/Implementations/EspressoMachineImplementation.php:143-170 | after start-up and any calls with non-negative amounts and in-bounds containers, a brew is never refused with NeedsDescale and "Descale needed" is never shown |
| Scenarios.FirstEspressoFromDefaults | app/Implementations/EspressoMachineImplementation.php:150-237 | with the defaults: one espresso gives 0.05 litres and leaves 49 spoons, 1.95 litres, an accumulator of -0.05 and the status "39 Espressos Left" |
| Scenarios.ShortOfWaterKeepsBeansTaken | app/Implementations/EspressoMachineImplementation.php:156-166 | with 10 spoons and 0.04 litres, one espresso fails with NotEnough and leaves 9 spoons |
| Scenarios.PastThresholdAsksForDescale | app/Implementations/EspressoMachineImplementation.php:150-217 | with the accumulator past the threshold: "Descale needed" on mains, "Add water" off mains with less than a descale's water, and brewing refused |
| Scenarios.ThresholdComparisonsDisagree | app/Implementations/EspressoMachineImplementation.php:150-217 | with the accumulator exactly at the threshold, the display says "Descale needed" while a brew succeeds |
| Scenarios.DescaleAfterBrewRaisesAccumulator | app/Implementations/EspressoMachineImplementation.php:139-173 | after one espresso from the defaults, a descale raises the accumulator from -0.05 to 0 and leaves 0.95 litres |
| Scenarios.NegativeBrewTripsGuard | app/Implementations/EspressoMachineImplementation.php:150-173 | from the default start, a brew of -101 succeeds, leaves 151 spoons, 7.05 litres and an accumulator of 5.05, after which the display says "Descale needed" and the next espresso is refused with NeedsDescale |

## Left out

- HTTP routing, request validation (the 422 on a non-integer quantity) and JSON formatting in the controller: they are adapters around the core. Only the controller's start-up calls are modelled (`Scenarios.Boot`).
- Dependency-injection wiring and reading the configuration from the environment: the constants are a `Config` parameter, and `Settings.Defaults` holds the defaults.
- Integer width: PHP integers are 64-bit and overflow into floats (for example `beans_per_espresso * $quantity` at `EspressoMachineImplementation.php:157`). Dafny's unbounded `int` does not model that overflow.
- Floating point: litres are exact reals. PHP's float rounding and the float-to-string conversion before `bcdiv` are not modelled.
- Exception messages: only error kinds are modelled. The values a message would read, such as the level the NoWater message quotes, are not.
- The exception classes' hierarchy is not part of this model. It is taken that `ContainerFullException` is a `ContainerException`, which is how a bean shortage becomes NoBeans. It is also taken that the machine's own "no bean container" exception is not one, so it passes through `makeEspressos` as NoContainer.
- Calls on an absent container that PHP would crash on (`getBeans`, `addWater`, `useWater`, the descale and brew debits) become a NoContainer error.
- Mains supply as an unlimited source of water: the code does not implement it.
- Display.GetStatus: requires non-zero per-espresso rates, because `bcdiv` by zero raises an error that the model does not represent.
- Concurrency, and rebuilding the machine on each request.

=== FILE: beans.dfy ===
/** The bean hopper: a bounded store of spoons of ground beans. */
module Beans {
  import opened Results

  /** Capacity of a container built without an argument. */
  const DefaultCapacity: int := 50

  /** A bean container: its capacity and the spoons it holds. Both are plain
      integers, as the source puts no type or sign check on them. */
  datatype BeansContainer = BeansContainer(capacity: int, spoons: int)

  /** The bounds the container is meant to keep. */
  predicate Valid(c: BeansContainer)
  {
    0 <= c.spoons <= c.capacity
  }

  /** Room left before the container is full. */
  function Space(c: BeansContainer): int
  {
    c.capacity - c.spoons
  }

  /** A freshly built container: it holds nothing, so all of its capacity is free. */
  function New(capacity: int := DefaultCapacity): (c: BeansContainer)
    ensures GetBeans(c) == 0
    ensures Space(c) == capacity
    ensures Valid(c) <==> 0 <= capacity
  {
    BeansContainer(capacity, 0)
  }

  /** Adds `n` spoons; refused when they do not fit in the room left. */
  function AddBeans(c: BeansContainer, n: int): (r: Result<BeansContainer>)
    ensures r.Ok? <==> n <= Space(c)
    ensures r.Err? ==> r.error == ContainerFull
    ensures r.Ok? ==> r.value.capacity == c.capacity && GetBeans(r.value) == GetBeans(c) + n
    ensures Valid(c) && 0 <= n && r.Ok? ==> Valid(r.value)
  {
    if n > c.capacity - c.spoons then Err(ContainerFull)
    else Ok(c.(spoons := c.spoons + n))
  }

  /** Takes `n` spoons and returns the amount taken. A request beyond the stock
      raises ContainerFullException (sic); the code after that throw, which would
      have drained the container, can never run and is not modelled. */
  function UseBeans(c: BeansContainer, n: int): (r: Result<(BeansContainer, int)>)
    ensures r.Ok? <==> n <= GetBeans(c)
    ensures r.Err? ==> r.error == ContainerFull
    ensures r.Ok? ==> r.value.1 == n
    ensures r.Ok? ==> r.value.0.capacity == c.capacity && GetBeans(r.value.0) == GetBeans(c) - n
    ensures Valid(c) && 0 <= n && r.Ok? ==> Valid(r.value.0)
  {
    if n > c.spoons then Err(ContainerFull)
    else Ok((c.(spoons := c.spoons - n), n))
  }

  /** The spoons held; within the bounds whenever the container is valid. */
  function GetBeans(c: BeansContainer): (n: int)
    ensures Valid(c) ==> 0 <= n <= c.capacity
  {
    c.spoons
  }

  /** Taking back what was just added restores the container and hands back the
      same amount. */
  lemma AddThenUse(c: BeansContainer, n: int)
    requires 0 <= c.spoons
    requires AddBeans(c, n).Ok?
    ensures UseBeans(AddBeans(c, n).value, n) == Ok((c, n))
  {
  }

  /** Putting back what was just taken restores the container. */
  lemma UseThenAdd(c: BeansContainer, n: int)
    requires c.spoons <= c.capacity
    requires UseBeans(c, n).Ok?
    ensures AddBeans(UseBeans(c, n).value.0, n) == Ok(c)
  {
  }

  /** After adding `n` spoons to a fresh container, adding one spoon more than
      the room left is refused and the container keeps its `n` spoons. */
  lemma OverfillRefused(capacity: int, n: int)
    requires 0 <= n <= capacity
    ensures AddBeans(New(capacity), n).Ok?
    ensures AddBeans(AddBeans(New(capacity), n).value, capacity - n + 1) == Err(ContainerFull)
    ensures GetBeans(AddBeans(New(capacity), n).value) == n
  {
  }

  /** Without a sign check, a negative amount pushes a valid container out of its
      bounds in either direction, so the bound lemmas need `0 <= n`. */
  lemma NegativeAmountsBreakBounds()
    ensures AddBeans(New(DefaultCapacity), -1).Ok?
    ensures !Valid(AddBeans(New(DefaultCapacity), -1).value)
    ensures UseBeans(BeansContainer(DefaultCapacity, DefaultCapacity), -1).Ok?
    ensures !Valid(UseBeans(BeansContainer(DefaultCapacity, DefaultCapacity), -1).value.0)
  {
  }
}

=== FILE: machine.dfy ===
/** The espresso machine: two optional containers, a mains-supply flag and the
    litres-since-last-descale accumulator, with the delegating container calls,
    descaling and brewing. */
module Espresso {
  import opened Results
  import opened Settings
  import Beans
  import Water

  /** The machine's state. A container is `None` until one is attached. */
  datatype EspressoMachine = EspressoMachine(
    beans: Option<Beans.BeansContainer>,
    water: Option<Water.WaterContainer>,
    mainsSupply: bool,
    litresSinceLastDescale: real)

  /** What a machine call leaves behind: the machine as the call leaves it, and
      the value it returned or the error it raised. A failed call may still have
      changed the machine (see `MakeEspressos`). */
  datatype Outcome<+T> = Outcome(machine: EspressoMachine, result: Result<T>)

  /** Both containers are attached. */
  predicate Assembled(m: EspressoMachine)
  {
    m.beans.Some? && m.water.Some?
  }

  /** A newly built machine: no containers and an accumulator at zero. Built
      without an argument, it is not on mains supply. */
  function New(mainsSupply: bool := false): (m: EspressoMachine)
    ensures !HasBeansContainer(m) && !HasWaterContainer(m)
    ensures m.mainsSupply == mainsSupply
    ensures m.litresSinceLastDescale == 0.0
  {
    EspressoMachine(None, None, mainsSupply, 0.0)
  }

  // ---- container attach / query ----

  /** Attaches (or replaces) the bean container; nothing else changes. */
  function SetBeansContainer(m: EspressoMachine, c: Beans.BeansContainer): (m': EspressoMachine)
    ensures HasBeansContainer(m') && GetBeansContainer(m') == Some(c)
    ensures m'.water == m.water && m'.mainsSupply == m.mainsSupply
    ensures m'.litresSinceLastDescale == m.litresSinceLastDescale
  {
    m.(beans := Some(c))
  }

  /** Attaches (or replaces) the water container; nothing else changes. */
  function SetWaterContainer(m: EspressoMachine, c: Water.WaterContainer): (m': EspressoMachine)
    ensures HasWaterContainer(m') && GetWaterContainer(m') == Some(c)
    ensures m'.beans == m.beans && m'.mainsSupply == m.mainsSupply
    ensures m'.litresSinceLastDescale == m.litresSinceLastDescale
  {
    m.(water := Some(c))
  }

  /** A bean container is attached, whatever it holds: exactly when the
      getter hands one back. */
  predicate HasBeansContainer(m: EspressoMachine): (b: bool)
    ensures b <==> GetBeansContainer(m).Some?
  {
    m.beans.Some?
  }

  /** A water container is attached, whatever it holds: exactly when the
      getter hands one back. */
  predicate HasWaterContainer(m: EspressoMachine): (b: bool)
    ensures b <==> GetWaterContainer(m).Some?
  {
    m.water.Some?
  }

  /** The attached bean container, or `None` (PHP's null). The machine's own
      `GetBeans` reads exactly this container. */
  function GetBeansContainer(m: EspressoMachine): (r: Option<Beans.BeansContainer>)
    ensures r.Some? ==> GetBeans(m) == Ok(r.value.spoons)
    ensures r.None? ==> GetBeans(m) == Err(NoContainer)
  {
    m.beans
  }

  /** The attached water container, or `None` (PHP's null). The machine's own
      `GetWater` reads exactly this container. */
  function GetWaterContainer(m: EspressoMachine): (r: Option<Water.WaterContainer>)
    ensures r.Some? ==> GetWater(m) == Ok(r.value.litres)
    ensures r.None? ==> GetWater(m) == Err(NoContainer)
  {
    m.water
  }

  // ---- delegating calls ----

  /** Adds spoons to the attached bean container. */
  function AddBeans(m: EspressoMachine, n: int): (o: Outcome<()>)
    ensures m.beans.None? ==> o == Outcome(m, Err(NoContainer))
    ensures m.beans.Some? ==> (o.result.Ok? <==> n <= Beans.Space(m.beans.value))
    ensures m.beans.Some? && o.result.Err? ==> o.result.error == ContainerFull
    ensures o.result.Err? ==> o.machine == m
    ensures o.result.Ok? ==> o.machine == m.(beans := Some(Beans.AddBeans(m.beans.value, n).value))
  {
    match m.beans
    case None => Outcome(m, Err(NoContainer))
    case Some(c) =>
      match Beans.AddBeans(c, n)
      case Err(e) => Outcome(m, Err(e))
      case Ok(c') => Outcome(m.(beans := Some(c')), Ok(()))
  }

  /** Takes spoons from the attached bean container. The amount the container
      hands back is discarded: the machine's call returns nothing. */
  function UseBeans(m: EspressoMachine, n: int): (o: Outcome<()>)
    ensures m.beans.None? ==> o == Outcome(m, Err(NoContainer))
    ensures m.beans.Some? ==> (o.result.Ok? <==> n <= m.beans.value.spoons)
    ensures m.beans.Some? && o.result.Err? ==> o.result.error == ContainerFull
    ensures o.result.Err? ==> o.machine == m
    ensures o.result.Ok? ==> o.machine == m.(beans := Some(m.beans.value.(spoons := m.beans.value.spoons - n)))
  {
    match m.beans
    case None => Outcome(m, Err(NoContainer))
    case Some(c) =>
      match Beans.UseBeans(c, n)
      case Err(e) => Outcome(m, Err(e))
      case Ok(taken) => Outcome(m.(beans := Some(taken.0)), Ok(()))
  }

  /** The spoons in the attached bean container. */
  function GetBeans(m: EspressoMachine): (r: Result<int>)
    ensures r.Ok? <==> m.beans.Some?
    ensures r.Err? ==> r.error == NoContainer
    ensures r.Ok? ==> r.value == m.beans.value.spoons
  {
    match m.beans
    case None => Err(NoContainer)
    case Some(c) => Ok(Beans.GetBeans(c))
  }

  /** Adds water to the attached tank. A machine on mains supply refuses every
      add, whatever the amount, before it looks at the tank. */
  function AddWater(m: EspressoMachine, l: real): (o: Outcome<()>)
    ensures m.mainsSupply ==> o == Outcome(m, Err(MainsSupply))
    ensures !m.mainsSupply && m.water.None? ==> o == Outcome(m, Err(NoContainer))
    ensures !m.mainsSupply && m.water.Some? ==> (o.result.Ok? <==> l <= Water.Space(m.water.value))
    ensures !m.mainsSupply && m.water.Some? && o.result.Err? ==> o.result.error == ContainerFull
    ensures o.result.Err? ==> o.machine == m
    ensures o.result.Ok? ==> o.machine == m.(water := Some(Water.AddWater(m.water.value, l).value))
  {
    if m.mainsSupply then Outcome(m, Err(MainsSupply))
    else
      match m.water
      case None => Outcome(m, Err(NoContainer))
      case Some(c) =>
        match Water.AddWater(c, l)
        case Err(e) => Outcome(m, Err(e))
        case Ok(c') => Outcome(m.(water := Some(c')), Ok(()))
  }

  /** Draws water from the attached tank, also on mains supply, and returns the
      volume left in it. */
  function UseWater(m: EspressoMachine, l: real): (o: Outcome<real>)
    ensures m.water.None? ==> o == Outcome(m, Err(NoContainer))
    ensures m.water.Some? ==> (o.result.Ok? <==> l <= m.water.value.litres)
    ensures m.water.Some? && o.result.Err? ==> o.result.error == NotEnough
    ensures o.result.Err? ==> o.machine == m
    ensures o.result.Ok? ==> o.machine == m.(water := Some(m.water.value.(litres := m.water.value.litres - l)))
    ensures o.result.Ok? ==> o.result.value == o.machine.water.value.litres
  {
    match m.water
    case None => Outcome(m, Err(NoContainer))
    case Some(c) =>
      match Water.UseWater(c, l)
      case Err(e) => Outcome(m, Err(e))
      case Ok(drawn) => Outcome(m.(water := Some(drawn.0)), Ok(drawn.1))
  }

  /** The litres in the attached tank. */
  function GetWater(m: EspressoMachine): (r: Result<real>)
    ensures r.Ok? <==> m.water.Some?
    ensures r.Err? ==> r.error == NoContainer
    ensures r.Ok? ==> r.value == m.water.value.litres
  {
    match m.water
    case None => Err(NoContainer)
    case Some(c) => Ok(Water.GetWater(c))
  }

  // ---- descaling and brewing ----

  /** Runs a descale: draws the descale volume of water and resets the
      accumulator. A tank short of that volume makes it fail with NoWater and
      change nothing. */
  function Descale(cfg: Config, m: EspressoMachine): (o: Outcome<()>)
    ensures m.water.None? ==> o == Outcome(m, Err(NoContainer))
    ensures m.water.Some? ==> (o.result.Ok? <==> cfg.litresUsedPerDescale <= m.water.value.litres)
    ensures m.water.Some? && o.result.Err? ==> o.result.error == NoWater
    ensures o.result.Err? ==> o.machine == m
    ensures o.result.Ok? ==> o.machine.litresSinceLastDescale == 0.0
    ensures o.machine.beans == m.beans && o.machine.mainsSupply == m.mainsSupply
    ensures o.machine.water.Some? <==> m.water.Some?
    ensures o.result.Ok? ==> o.machine.water.value.litres == m.water.value.litres - cfg.litresUsedPerDescale
    ensures o.machine.water.Some? ==> o.machine.water.value.capacity == m.water.value.capacity
  {
    var drawn := UseWater(m, cfg.litresUsedPerDescale);
    match drawn.result
    case Ok(_) => Outcome(drawn.machine.(litresSinceLastDescale := 0.0), Ok(()))
    case Err(e) =>
      // only a ContainerException is turned into NoWater; a missing tank is not one
      if e == NoContainer then Outcome(drawn.machine, Err(e))
      else Outcome(drawn.machine, Err(NoWater))
  }

  /** The brew guard: the accumulator is strictly past the descale threshold. */
  predicate DescaleDue(cfg: Config, m: EspressoMachine)
  {
    m.litresSinceLastDescale > cfg.litresPerDescale
  }

  /** Spoons one brew of `quantity` espressos takes. */
  function BeansFor(cfg: Config, quantity: int): int
  {
    cfg.beansPerEspresso * quantity
  }

  /** Litres one brew of `quantity` espressos takes. */
  function LitresFor(cfg: Config, quantity: int): real
  {
    cfg.litresUsedPerEspresso * quantity as real
  }

  /** Brews `quantity` espressos in four unguarded steps: the descale guard,
      the beans debit, the water debit, the accumulator update. Beans taken
      before a failing water debit are not given back, a water shortage
      surfaces as the tank's own error (NotEnough), and the accumulator goes
      DOWN by the litres brewed. The result is the litres brewed. */
  function MakeEspressos(cfg: Config, m: EspressoMachine, quantity: int): (o: Outcome<real>)
    // 1. the guard rejects before anything is touched
    ensures DescaleDue(cfg, m) ==> o == Outcome(m, Err(NeedsDescale))
    // 2. no bean container, or too few beans: nothing is touched
    ensures !DescaleDue(cfg, m) && m.beans.None? ==> o == Outcome(m, Err(NoContainer))
    ensures !DescaleDue(cfg, m) && m.beans.Some? && BeansFor(cfg, quantity) > m.beans.value.spoons
      ==> o == Outcome(m, Err(NoBeans))
    // 3. beans taken, then the water debit fails: the beans stay taken
    ensures !DescaleDue(cfg, m) && m.beans.Some? && BeansFor(cfg, quantity) <= m.beans.value.spoons
      && (m.water.None? || LitresFor(cfg, quantity) > m.water.value.litres)
      ==> && o.machine == UseBeans(m, BeansFor(cfg, quantity)).machine
          && o.result == Err(if m.water.None? then NoContainer else NotEnough)
    // 4. success exactly when the guard is clear and both debits fit
    ensures o.result.Ok? <==>
      && !DescaleDue(cfg, m) && Assembled(m)
      && BeansFor(cfg, quantity) <= m.beans.value.spoons
      && LitresFor(cfg, quantity) <= m.water.value.litres
    ensures o.result.Ok? ==>
      && Assembled(o.machine)
      && o.result.value == LitresFor(cfg, quantity)
      && o.machine.beans.value == m.beans.value.(spoons := m.beans.value.spoons - BeansFor(cfg, quantity))
      && o.machine.water.value == m.water.value.(litres := m.water.value.litres - LitresFor(cfg, quantity))
      && o.machine.litresSinceLastDescale == m.litresSinceLastDescale - LitresFor(cfg, quantity)
    ensures o.machine.mainsSupply == m.mainsSupply
  {
    if m.litresSinceLastDescale > cfg.litresPerDescale then
      Outcome(m, Err(NeedsDescale))
    else
      var b := UseBeans(m, cfg.beansPerEspresso * quantity);
      match b.result
      case Err(e) =>
        // the catch translates the container's exception into NoBeans; the
        // machine's own "no container" exception passes through
        Outcome(b.machine, Err(if e == NoContainer then e else NoBeans))
      case Ok(_) =>
        var w := UseWater(b.machine, cfg.litresUsedPerEspresso * quantity as real);
        match w.result
        case Err(e) =>
          // the surrounding catch names NoBeansException, which UseWater never raises
          Outcome(w.machine, Err(e))
        case Ok(_) =>
          var made := cfg.litresUsedPerEspresso * quantity as real;
          Outcome(w.machine.(litresSinceLastDescale := w.machine.litresSinceLastDescale - made), Ok(made))
  }

  /** One espresso: a brew of one, with its guard, its errors and its debits. */
  function MakeEspresso(cfg: Config, m: EspressoMachine): (o: Outcome<real>)
    ensures DescaleDue(cfg, m) ==> o == Outcome(m, Err(NeedsDescale))
    ensures !DescaleDue(cfg, m) && m.beans.None? ==> o == Outcome(m, Err(NoContainer))
    ensures !DescaleDue(cfg, m) && m.beans.Some? && cfg.beansPerEspresso > m.beans.value.spoons
      ==> o == Outcome(m, Err(NoBeans))
    ensures !DescaleDue(cfg, m) && m.beans.Some? && cfg.beansPerEspresso <= m.beans.value.spoons
      && (m.water.None? || cfg.litresUsedPerEspresso > m.water.value.litres)
      ==> && o.machine == UseBeans(m, cfg.beansPerEspresso).machine
          && o.result == Err(if m.water.None? then NoContainer else NotEnough)
    ensures o.result.Ok? <==>
      && !DescaleDue(cfg, m) && Assembled(m)
      && cfg.beansPerEspresso <= m.beans.value.spoons
      && cfg.litresUsedPerEspresso <= m.water.value.litres
    ensures o.result.Ok? ==> o.result.value == cfg.litresUsedPerEspresso
    ensures o.result.Ok? ==>
      && Assembled(o.machine)
      && o.machine.beans.value == m.beans.value.(spoons := m.beans.value.spoons - cfg.beansPerEspresso)
      && o.machine.water.value == m.water.value.(litres := m.water.value.litres - cfg.litresUsedPerEspresso)
      && o.machine.litresSinceLastDescale == m.litresSinceLastDescale - cfg.litresUsedPerEspresso
    ensures o.machine.mainsSupply == m.mainsSupply
  {
    MakeEspressos(cfg, m, 1)
  }

  /** Two espressos in one brew: twice the beans and twice the water, with the
      same guard and errors as any brew. */
  function MakeDoubleEspresso(cfg: Config, m: EspressoMachine): (o: Outcome<real>)
    ensures DescaleDue(cfg, m) ==> o == Outcome(m, Err(NeedsDescale))
    ensures !DescaleDue(cfg, m) && m.beans.None? ==> o == Outcome(m, Err(NoContainer))
    ensures !DescaleDue(cfg, m) && m.beans.Some? && 2 * cfg.beansPerEspresso > m.beans.value.spoons
      ==> o == Outcome(m, Err(NoBeans))
    ensures !DescaleDue(cfg, m) && m.beans.Some? && 2 * cfg.beansPerEspresso <= m.beans.value.spoons
      && (m.water.None? || 2.0 * cfg.litresUsedPerEspresso > m.water.value.litres)
      ==> && o.machine == UseBeans(m, 2 * cfg.beansPerEspresso).machine
          && o.result == Err(if m.water.None? then NoContainer else NotEnough)
    ensures o.result.Ok? <==>
      && !DescaleDue(cfg, m) && Assembled(m)
      && 2 * cfg.beansPerEspresso <= m.beans.value.spoons
      && 2.0 * cfg.litresUsedPerEspresso <= m.water.value.litres
    ensures o.result.Ok? ==> o.result.value == 2.0 * cfg.litresUsedPerEspresso
    ensures o.result.Ok? ==>
      && Assembled(o.machine)
      && o.machine.beans.value == m.beans.value.(spoons := m.beans.value.spoons - 2 * cfg.beansPerEspresso)
      && o.machine.water.value == m.water.value.(litres := m.water.value.litres - 2.0 * cfg.litresUsedPerEspresso)
      && o.machine.litresSinceLastDescale == m.litresSinceLastDescale - 2.0 * cfg.litresUsedPerEspresso
    ensures o.machine.mainsSupply == m.mainsSupply
  {
    MakeEspressos(cfg, m, 2)
  }

  /** With non-negative rates, a double espresso that succeeds is the same as
      two single espressos in a row: both succeed, make the same litres in
      total and leave the same machine. */
  lemma DoubleIsTwoSingles(cfg: Config, m: EspressoMachine)
    requires 0 <= cfg.beansPerEspresso && 0.0 <= cfg.litresUsedPerEspresso
    requires MakeDoubleEspresso(cfg, m).result.Ok?
    ensures MakeEspresso(cfg, m).result.Ok?
    ensures MakeEspresso(cfg, MakeEspresso(cfg, m).machine).result.Ok?
    ensures MakeEspresso(cfg, MakeEspresso(cfg, m).machine).machine == MakeDoubleEspresso(cfg, m).machine
    ensures MakeEspresso(cfg, m).result.value + MakeEspresso(cfg, MakeEspresso(cfg, m).machine).result.value
      == MakeDoubleEspresso(cfg, m).result.value
  {
    var first := MakeEspresso(cfg, m);
    assert first.result.Ok?;
    var second := MakeEspresso(cfg, first.machine);
    assert !DescaleDue(cfg, first.machine);
    assert second.result.Ok?;
  }
}

=== FILE: numbers.dfy ===
/** The integer arithmetic `getStatus` uses to count espressos. */
module Numbers {

  /** Truncation toward zero, which is what `intval` does to the decimal string
      `bcdiv` returns at scale 0. */
  function Trunc(x: real): (k: int)
    ensures 0.0 <= x ==> k as real <= x < k as real + 1.0
    ensures x < 0.0 ==> k as real - 1.0 < x <= k as real
  {
    if x >= 0.0 then x.Floor else -((-x).Floor)
  }

  /** `intval(bcdiv(x, d))`: the quotient of `x` by `d`, truncated toward zero. */
  function Quotient(x: real, d: real): (k: int)
    requires d != 0.0
    ensures k == Trunc(x / d)
    ensures 0.0 <= x && 0.0 < d ==> 0 <= k && k as real * d <= x < (k as real + 1.0) * d
  {
    var k := Trunc(x / d);
    assert 0.0 <= x && 0.0 < d ==> k as real * d <= x < (k as real + 1.0) * d by {
      if 0.0 <= x && 0.0 < d {
        ScaleBounds(x, d, k);
      }
    }
    k
  }

  /** Scaling `k <= x / d < k + 1` by a positive `d`. */
  lemma ScaleBounds(x: real, d: real, k: int)
    requires 0.0 < d
    requires k as real <= x / d < k as real + 1.0
    ensures k as real * d <= x < (k as real + 1.0) * d
  {
    var q := x / d;
    assert q * d == x;
    var lo := q - k as real;
    var hi := k as real + 1.0 - q;
    assert 0.0 < hi;
    assert 0.0 <= lo * d;
    assert 0.0 < hi * d;
    assert hi * d == (k as real + 1.0) * d - x;
    assert lo * d == x - k as real * d;
  }

  /** For a non-negative dividend and a positive divisor, the truncated
      quotient is the largest `n` whose multiple still fits in the dividend. */
  lemma {:induction false} QuotientIsLargestFit(x: real, d: real, n: int)
    requires 0.0 <= x && 0.0 < d
    ensures n as real * d <= x <==> n <= Quotient(x, d)
  {
    var k := Quotient(x, d);
    if n <= k {
      assert (k - n) as real * d >= 0.0;
      assert (k - n) as real * d == k as real * d - n as real * d;
    } else {
      assert (n - (k + 1)) as real * d >= 0.0;
      assert (n - (k + 1)) as real * d == n as real * d - (k as real + 1.0) * d;
    }
  }

  /** Integer multiplication agrees with real multiplication of the casts. */
  lemma ProductCast(a: int, b: int)
    ensures (a * b) as real == a as real * b as real
  {
  }

  /** The smaller of two integers, as PHP's `min`. */
  function Min(a: int, b: int): (m: int)
    ensures m <= a && m <= b
    ensures m == a || m == b
  {
    if a <= b then a else b
  }
}

=== FILE: results.dfy ===
/** Error kinds and the result wrappers shared by the containers and the machine.
    Only the kind of each exception is modelled; message texts are not. */
module Results {

  /** The exceptions the containers and the machine raise, one case per kind. */
  datatype Error =
    | ContainerFull   // ContainerFullException: an add past capacity, and also a beans use past stock
    | NotEnough       // ContainerException raised by a water container asked for more than it holds
    | NoContainer     // the machine has no container of the kind the call needs
    | MainsSupply     // ContainerException raised by addWater on a machine on mains supply
    | NoBeans         // NoBeansException: not enough beans to brew
    | NoWater         // NoWaterException: not enough water to descale
    | NeedsDescale    // EspressoMachineException raised by the descale guard before brewing

  /** A value, or the error that was raised instead. */
  datatype Result<+T> = Ok(value: T) | Err(error: Error)

  /** An optional reference: a container that may not be attached. */
  datatype Option<+T> = None | Some(value: T)
}

=== FILE: scenarios.dfy ===
/** The controller's start-up sequence and worked scenarios on it. */
module Scenarios {
  import opened Results
  import opened Settings
  import Beans
  import Water
  import opened Espresso
  import Display
  import Traces

  /** The calls the controller makes on a new machine: attach a container of
      each kind, sized from the configuration, then fill each to capacity. */
  function BootCalls(cfg: Config): seq<Traces.Call>
  {
    [ Traces.AttachBeans(Beans.New(cfg.beansCapacity)),
      Traces.AttachWater(Water.New(cfg.waterCapacity as real)),
      Traces.AddBeansCall(cfg.beansCapacity),
      Traces.AddWaterCall(cfg.waterCapacity as real) ]
  }

  /** Start-up as the controller does it, on a machine built with its default
      (not on mains). Each fill exactly matches the empty container's room, so
      start-up never fails, and the machine starts full. */
  function Boot(cfg: Config): (r: Result<EspressoMachine>)
    ensures r.Ok?
    ensures Assembled(r.value) && !r.value.mainsSupply
    ensures r.value.beans.value == Beans.BeansContainer(cfg.beansCapacity, cfg.beansCapacity)
    ensures r.value.water.value == Water.WaterContainer(cfg.waterCapacity as real, cfg.waterCapacity as real)
    ensures r.value.litresSinceLastDescale == 0.0
  {
    var m0 := Espresso.New();
    var m1 := SetBeansContainer(m0, Beans.New(cfg.beansCapacity));
    var m2 := SetWaterContainer(m1, Water.New(cfg.waterCapacity as real));
    var filledBeans := AddBeans(m2, cfg.beansCapacity);
    match filledBeans.result
    case Err(e) => Err(e)
    case Ok(_) =>
      var filledWater := AddWater(filledBeans.machine, cfg.waterCapacity as real);
      match filledWater.result
      case Err(e) => Err(e)
      case Ok(_) => Ok(filledWater.machine)
  }

  /** Start-up is the call sequence `BootCalls` run on a new machine. */
  lemma {:induction false} BootRunsBootCalls(cfg: Config)
    ensures Boot(cfg).value == Traces.Run(cfg, Espresso.New(), BootCalls(cfg))
  {
    var calls := BootCalls(cfg);
    var m := Espresso.New();
    var m1 := Traces.Step(cfg, m, calls[0]);
    var m2 := Traces.Step(cfg, m1, calls[1]);
    var m3 := Traces.Step(cfg, m2, calls[2]);
    var m4 := Traces.Step(cfg, m3, calls[3]);
    assert calls[1..][1..][1..][1..] == [];
    calc {
      Traces.Run(cfg, m, calls);
      Traces.Run(cfg, m1, calls[1..]);
      Traces.Run(cfg, m2, calls[1..][1..]);
      Traces.Run(cfg, m3, calls[1..][1..][1..]);
      Traces.Run(cfg, m4, calls[1..][1..][1..][1..]);
      m4;
    }
  }

  /** Under sane constants the booted machine is healthy, so the trace lemmas
      apply to everything that follows it. */
  lemma BootIsHealthy(cfg: Config)
    requires Sane(cfg)
    ensures Traces.Healthy(Boot(cfg).value)
  {
  }

  /** However the started machine is used afterwards (with non-negative
      amounts and in-bounds containers), a brew is never refused for want of a
      descale and the display never asks for one. */
  lemma {:induction false} ServedMachineNeverNeedsDescale(cfg: Config, calls: seq<Traces.Call>, q: int)
    requires Sane(cfg)
    requires forall i :: 0 <= i < |calls| ==> Traces.Modest(calls[i])
    ensures MakeEspressos(cfg, Traces.Run(cfg, Boot(cfg).value, calls), q).result != Err(NeedsDescale)
    ensures Display.GetStatus(cfg, Traces.Run(cfg, Boot(cfg).value, calls)) != Ok(Display.DescaleNeeded)
  {
    BootIsHealthy(cfg);
    Traces.RunKeepsHealthy(cfg, Boot(cfg).value, calls);
  }

  /** One espresso from the default start: 0.05 litres made, 49 spoons and
      1.95 litres left, the accumulator at -0.05, and the display showing
      min(49, 39) = 39 espressos left. */
  lemma FirstEspressoFromDefaults()
    ensures var o := MakeEspresso(Defaults, Boot(Defaults).value);
      && o.result == Ok(0.05)
      && o.machine.beans.value.spoons == 49
      && o.machine.water.value.litres == 1.95
      && o.machine.litresSinceLastDescale == -0.05
      && Display.GetStatus(Defaults, o.machine) == Ok(Display.EspressosLeft(39))
  {
    var o := MakeEspresso(Defaults, Boot(Defaults).value);
    assert 1.95 / 0.05 == 39.0;
    assert Display.WaterWorth(Defaults, 1.95) == 39;
  }

  /** With 10 spoons but only 0.04 litres, an espresso fails on the water debit
      with the tank's error, not NoWater, and the spoon it took stays taken. */
  lemma ShortOfWaterKeepsBeansTaken()
    ensures var m := EspressoMachine(Some(Beans.BeansContainer(50, 10)), Some(Water.WaterContainer(2.0, 0.04)), false, 0.0);
      var o := MakeEspresso(Defaults, m);
      && o.result == Err(NotEnough)
      && o.machine.beans.value.spoons == 9
      && o.machine.water.value.litres == 0.04
      && o.machine.litresSinceLastDescale == 0.0
  {
  }

  /** Past the threshold the display asks for a descale on mains supply, and
      for water when the tank holds less than one descale; brewing is refused
      either way. */
  lemma PastThresholdAsksForDescale()
    ensures var onMains := EspressoMachine(Some(Beans.BeansContainer(50, 50)), Some(Water.WaterContainer(2.0, 0.5)), true, 6.0);
      && Display.GetStatus(Defaults, onMains) == Ok(Display.DescaleNeeded)
      && Display.GetStatus(Defaults, onMains.(mainsSupply := false)) == Ok(Display.AddWater)
      && MakeEspresso(Defaults, onMains) == Outcome(onMains, Err(NeedsDescale))
  {
  }

  /** At exactly the threshold the two comparisons disagree: the display says
      "Descale needed" (`>=`) while the brew guard (`>`) still lets a brew run. */
  lemma ThresholdComparisonsDisagree()
    ensures var m := EspressoMachine(Some(Beans.BeansContainer(50, 50)), Some(Water.WaterContainer(2.0, 2.0)), false, 5.0);
      && Display.GetStatus(Defaults, m) == Ok(Display.DescaleNeeded)
      && MakeEspresso(Defaults, m).result == Ok(0.05)
  {
  }

  /** A descale after brewing RAISES the accumulator back to zero, because
      brewing had lowered it. */
  lemma DescaleAfterBrewRaisesAccumulator()
    ensures var brewed := MakeEspresso(Defaults, Boot(Defaults).value).machine;
      && brewed.litresSinceLastDescale == -0.05
      && Descale(Defaults, brewed).result.Ok?
      && Descale(Defaults, brewed).machine.litresSinceLastDescale == 0.0
      && Descale(Defaults, brewed).machine.water.value.litres == 0.95
  {
    FirstEspressoFromDefaults();
    var brewed := MakeEspresso(Defaults, Boot(Defaults).value).machine;
    assert brewed.water.value.litres == 1.95;
    var d := Descale(Defaults, brewed);
    assert d.result.Ok?;
  }

  /** The controller only checks that the quantity is an integer, so a negative
      brew runs: from the default start, brewing -101 espressos ADDS 101 spoons
      and 5.05 litres and pushes the accumulator to 5.05, past the threshold.
      The display then asks for a descale and the next espresso is refused.
      The invariant lemmas above therefore need non-negative amounts. */
  lemma NegativeBrewTripsGuard()
    ensures var o := MakeEspressos(Defaults, Boot(Defaults).value, -101);
      && o.result.Ok?
      && o.machine.beans.value.spoons == 151
      && o.machine.water.value.litres == 7.05
      && o.machine.litresSinceLastDescale == 5.05
      && Display.GetStatus(Defaults, o.machine) == Ok(Display.DescaleNeeded)
      && MakeEspresso(Defaults, o.machine).result == Err(NeedsDescale)
  {
    var m := Boot(Defaults).value;
    assert m.beans.value.spoons == 50 && m.water.value.litres == 2.0;
    var o := MakeEspressos(Defaults, m, -101);
    assert LitresFor(Defaults, -101) == -5.05;
    assert o.result.Ok?;
    var after := o.machine;
    assert after.litresSinceLastDescale == 5.05;
    assert DescaleDue(Defaults, after);
  }
}

=== FILE: settings.dfy ===
/** The machine's constants, passed in as one immutable record instead of
    being looked up from the environment inside each operation. */
module Settings {

  /** One field per configuration key. The two capacities are integers because
      the configuration casts them with `(int)`. */
  datatype Config = Config(
    beansPerEspresso: int,        // beans_per_espresso: spoons per espresso
    litresUsedPerEspresso: real,  // litres_used_per_espresso: water per espresso
    litresUsedPerDescale: real,   // litres_used_per_descale: water one descale consumes
    litresPerDescale: real,       // litres_per_descale: descale threshold of the accumulator
    beansCapacity: int,           // beans_container: hopper capacity, also its initial fill
    waterCapacity: int)           // water_container: tank capacity, also its initial fill

  /** The values used when the environment sets none. */
  const Defaults: Config := Config(1, 0.05, 1.0, 5.0, 50, 2)

  /** Constants under which the bound and accumulator properties hold: positive
      rates and threshold, non-negative descale volume and capacities. */
  predicate Sane(cfg: Config)
  {
    && 0 < cfg.beansPerEspresso
    && 0.0 < cfg.litresUsedPerEspresso
    && 0.0 <= cfg.litresUsedPerDescale
    && 0.0 < cfg.litresPerDescale
    && 0 <= cfg.beansCapacity
    && 0 <= cfg.waterCapacity
  }
}

=== FILE: status.dfy ===
/** The machine's display: the status `getStatus` derives from the state, in
    its fixed priority order, and what each status says about brewing. */
module Display {
  import opened Results
  import opened Settings
  import opened Numbers
  import opened Espresso

  /** The five things the display can say. */
  datatype Status =
    | AddWater
    | DescaleNeeded
    | AddBeansAndWater
    | AddBeans
    | EspressosLeft(count: int)

  /** The status branch: the accumulator has reached the descale threshold
      (`>=`, where the brew guard uses `>`). */
  predicate DescaleBranch(cfg: Config, m: EspressoMachine)
  {
    m.litresSinceLastDescale >= cfg.litresPerDescale
  }

  /** Espressos the beans allow, truncated toward zero. */
  function BeansWorth(cfg: Config, beans: int): int
    requires cfg.beansPerEspresso != 0
  {
    Quotient(beans as real, cfg.beansPerEspresso as real)
  }

  /** Espressos the water allows, truncated toward zero. */
  function WaterWorth(cfg: Config, litres: real): int
    requires cfg.litresUsedPerEspresso != 0.0
  {
    Quotient(litres, cfg.litresUsedPerEspresso)
  }

  /** The status, first match wins. The machine's getters are consulted in the
      order the source calls them, so a missing container is an error exactly
      when a branch taken needs it. Pure: the machine is not returned. */
  function GetStatus(cfg: Config, m: EspressoMachine): (r: Result<Status>)
    requires cfg.beansPerEspresso != 0 && cfg.litresUsedPerEspresso != 0.0
    ensures r.Err? ==> r.error == NoContainer
    ensures r.Err? <==>
      if DescaleBranch(cfg, m) then !m.mainsSupply && m.water.None?
      else m.beans.None? || m.water.None?
    ensures r == Ok(DescaleNeeded) ==> DescaleBranch(cfg, m)
    // mains supply never asks for water, and in the descale branch always asks for a descale
    ensures m.mainsSupply ==> r != Ok(AddWater)
    ensures m.mainsSupply && DescaleBranch(cfg, m) ==> r == Ok(DescaleNeeded)
    ensures r.Ok? && r.value.EspressosLeft? ==>
      && !DescaleBranch(cfg, m)
      && cfg.beansPerEspresso <= m.beans.value.spoons
      && (m.mainsSupply || cfg.litresUsedPerEspresso <= m.water.value.litres)
  {
    if m.litresSinceLastDescale >= cfg.litresPerDescale then
      if !m.mainsSupply then
        match GetWater(m)
        case Err(e) => Err(e)
        case Ok(w) => Ok(if w < cfg.litresUsedPerDescale then AddWater else DescaleNeeded)
      else
        Ok(DescaleNeeded)
    else
      match GetBeans(m)
      case Err(e) => Err(e)
      case Ok(b) =>
        // every path below reads the water level (lines 219, 227 or 234), so
        // reading it once here raises the same error on the same machines
        match GetWater(m)
        case Err(e) => Err(e)
        case Ok(w) =>
          if b < cfg.beansPerEspresso && w < cfg.litresUsedPerEspresso then Ok(AddBeansAndWater)
          else if b < cfg.beansPerEspresso then Ok(AddBeans)
          else if !m.mainsSupply && w < cfg.litresUsedPerEspresso then Ok(AddWater)
          else Ok(EspressosLeft(Min(BeansWorth(cfg, b), WaterWorth(cfg, w))))
  }

  // ---- what the display promises about brewing ----

  /** A brew of `q` fits exactly when `q` is at most both truncated quotients:
      the largest brew the beans and the water allow. */
  lemma {:induction false} BrewFitsIffWithinWorth(cfg: Config, m: EspressoMachine, q: int)
    requires 0 < cfg.beansPerEspresso && 0.0 < cfg.litresUsedPerEspresso
    requires Assembled(m) && 0 <= m.beans.value.spoons && 0.0 <= m.water.value.litres
    requires !DescaleDue(cfg, m)
    ensures MakeEspressos(cfg, m, q).result.Ok? <==>
      q <= Min(BeansWorth(cfg, m.beans.value.spoons), WaterWorth(cfg, m.water.value.litres))
  {
    var b := m.beans.value.spoons;
    var w := m.water.value.litres;
    ProductCast(cfg.beansPerEspresso, q);
    QuotientIsLargestFit(b as real, cfg.beansPerEspresso as real, q);
    QuotientIsLargestFit(w, cfg.litresUsedPerEspresso, q);
    assert BeansFor(cfg, q) <= b <==> q as real * cfg.beansPerEspresso as real <= b as real;
    assert LitresFor(cfg, q) <= w <==> q as real * cfg.litresUsedPerEspresso <= w;
  }

  /** The count on the display is the brew limit: a brew of `q` espressos
      succeeds exactly when `q` does not exceed it, and it is never negative. */
  lemma DisplayedCountIsBrewLimit(cfg: Config, m: EspressoMachine, q: int)
    requires 0 < cfg.beansPerEspresso && 0.0 < cfg.litresUsedPerEspresso
    requires Assembled(m) && 0.0 <= m.water.value.litres
    requires GetStatus(cfg, m).Ok? && GetStatus(cfg, m).value.EspressosLeft?
    ensures 0 <= GetStatus(cfg, m).value.count
    ensures MakeEspressos(cfg, m, q).result.Ok? <==> q <= GetStatus(cfg, m).value.count
  {
    BrewFitsIffWithinWorth(cfg, m, q);
  }

  /** Outside the descale branch, a machine that can brew one espresso shows a
      count of at least one, and nothing else. */
  lemma BrewableShowsCount(cfg: Config, m: EspressoMachine)
    requires 0 < cfg.beansPerEspresso && 0.0 < cfg.litresUsedPerEspresso
    requires !DescaleBranch(cfg, m)
    requires MakeEspresso(cfg, m).result.Ok?
    ensures GetStatus(cfg, m).Ok? && GetStatus(cfg, m).value.EspressosLeft?
    ensures 1 <= GetStatus(cfg, m).value.count
  {
    BrewFitsIffWithinWorth(cfg, m, 1);
  }

  /** Outside the descale branch, with both containers attached, the status
      names exactly what is short, judged by whether the machine's own calls
      could take one espresso's beans and one espresso's water. */
  lemma StatusNamesWhatIsShort(cfg: Config, m: EspressoMachine)
    requires cfg.beansPerEspresso != 0 && cfg.litresUsedPerEspresso != 0.0
    requires Assembled(m) && !DescaleBranch(cfg, m)
    ensures var beansShort := UseBeans(m, cfg.beansPerEspresso).result.Err?;
      var waterShort := UseWater(m, cfg.litresUsedPerEspresso).result.Err?;
      && (GetStatus(cfg, m) == Ok(AddBeansAndWater) <==> beansShort && waterShort)
      && (GetStatus(cfg, m) == Ok(AddBeans) <==> beansShort && !waterShort)
      && (GetStatus(cfg, m) == Ok(AddWater) <==> !beansShort && waterShort && !m.mainsSupply)
      && (GetStatus(cfg, m).Ok? && GetStatus(cfg, m).value.EspressosLeft?
          <==> !beansShort && (m.mainsSupply || !waterShort))
  {
  }

  /** "Add beans" and "Add beans and water" both mean a single espresso fails
      with NoBeans and leaves the machine as it was. */
  lemma AddBeansMeansNoBeans(cfg: Config, m: EspressoMachine)
    requires cfg.beansPerEspresso != 0 && cfg.litresUsedPerEspresso != 0.0
    requires GetStatus(cfg, m) == Ok(AddBeans) || GetStatus(cfg, m) == Ok(AddBeansAndWater)
    ensures MakeEspresso(cfg, m) == Outcome(m, Err(NoBeans))
  {
  }

  /** Conversely, outside the descale branch and with a water container
      attached, a single espresso refused with NoBeans means the display shows
      one of the two bean statuses. */
  lemma NoBeansShowsBeanStatus(cfg: Config, m: EspressoMachine)
    requires cfg.beansPerEspresso != 0 && cfg.litresUsedPerEspresso != 0.0
    requires !DescaleBranch(cfg, m) && HasWaterContainer(m)
    requires MakeEspresso(cfg, m).result == Err(NoBeans)
    ensures GetStatus(cfg, m) == Ok(AddBeans) || GetStatus(cfg, m) == Ok(AddBeansAndWater)
  {
  }

  /** "Add water" outside the descale branch means a single espresso fails on
      the water debit with the tank's own NotEnough error, after the beans for
      it have been taken. */
  lemma AddWaterMeansBrewShort(cfg: Config, m: EspressoMachine)
    requires cfg.beansPerEspresso != 0 && cfg.litresUsedPerEspresso != 0.0
    requires !DescaleBranch(cfg, m) && GetStatus(cfg, m) == Ok(AddWater)
    ensures MakeEspresso(cfg, m).result == Err(NotEnough)
    ensures MakeEspresso(cfg, m).machine == UseBeans(m, cfg.beansPerEspresso).machine
    ensures MakeEspresso(cfg, m).machine.beans.value.spoons == m.beans.value.spoons - cfg.beansPerEspresso
  {
  }

  /** In the descale branch without mains supply, "Add water" and "Descale
      needed" say exactly whether a descale would fail or succeed. */
  lemma DescaleStatusPredictsDescale(cfg: Config, m: EspressoMachine)
    requires cfg.beansPerEspresso != 0 && cfg.litresUsedPerEspresso != 0.0
    requires DescaleBranch(cfg, m) && !m.mainsSupply && HasWaterContainer(m)
    ensures GetStatus(cfg, m) == Ok(AddWater) <==> Descale(cfg, m) == Outcome(m, Err(NoWater))
    ensures GetStatus(cfg, m) == Ok(DescaleNeeded) <==> Descale(cfg, m).result.Ok?
  {
  }
}

=== FILE: text.dfy ===
/** The status as the display string `getStatus` returns, and a reader that
    recovers the status from the string: no two statuses share a string. */
module StatusText {
  import opened Results
  import opened Display

  const Suffix: string := " Espressos Left"

  /** A decimal digit character. */
  predicate IsDigit(c: char)
  {
    '0' <= c <= '9'
  }

  /** The character of a digit value. */
  function DigitChar(d: nat): (c: char)
    requires d < 10
    ensures IsDigit(c)
  {
    ('0' as int + d) as char
  }

  /** Decimal digits of a natural number, most significant first, no leading zero. */
  function NatText(n: nat): (t: string)
    ensures 0 < |t|
    ensures forall i :: 0 <= i < |t| ==> IsDigit(t[i])
    decreases n
  {
    if n < 10 then [DigitChar(n)] else NatText(n / 10) + [DigitChar(n % 10)]
  }

  /** An integer as PHP interpolates it into a string: a minus sign when negative. */
  function IntText(k: int): string
  {
    if k < 0 then "-" + NatText(-k) else NatText(k)
  }

  /** The text shown for each status. */
  function Message(s: Status): (t: string)
    ensures s.EspressosLeft? ==> |Suffix| < |t| && t[|t| - |Suffix|..] == Suffix
  {
    match s
    case AddWater => "Add water"
    case DescaleNeeded => "Descale needed"
    case AddBeansAndWater => "Add beans and water"
    case AddBeans => "Add beans"
    case EspressosLeft(n) => IntText(n) + Suffix
  }

  /** The value of a digit character. */
  function DigitValue(c: char): (d: nat)
    requires IsDigit(c)
    ensures d < 10 && DigitChar(d) == c
  {
    c as int - '0' as int
  }

  /** Reads a non-empty run of decimal digits. */
  function ReadNat(t: string): Option<nat>
    decreases |t|
  {
    if |t| == 0 || !IsDigit(t[|t| - 1]) then None
    else if |t| == 1 then Some(DigitValue(t[0]))
    else match ReadNat(t[..|t| - 1])
      case None => None
      case Some(high) => Some(high * 10 + DigitValue(t[|t| - 1]))
  }

  /** Reads an integer, optionally preceded by a minus sign. */
  function ReadInt(t: string): Option<int>
  {
    if 0 < |t| && t[0] == '-' then
      match ReadNat(t[1..])
      case None => None
      case Some(n) => Some(-(n as int))
    else
      match ReadNat(t)
      case None => None
      case Some(n) => Some(n)
  }

  /** The status a display string shows, if any. */
  function ReadMessage(t: string): Option<Status>
  {
    if t == "Add water" then Some(AddWater)
    else if t == "Descale needed" then Some(DescaleNeeded)
    else if t == "Add beans and water" then Some(AddBeansAndWater)
    else if t == "Add beans" then Some(AddBeans)
    else if |Suffix| < |t| && t[|t| - |Suffix|..] == Suffix then
      match ReadInt(t[..|t| - |Suffix|])
      case None => None
      case Some(n) => Some(EspressosLeft(n))
    else None
  }

  /** Digits read back to the number they were written from. */
  lemma {:induction false} ReadNatText(n: nat)
    ensures ReadNat(NatText(n)) == Some(n)
    decreases n
  {
    var t := NatText(n);
    if n >= 10 {
      ReadNatText(n / 10);
      assert t[..|t| - 1] == NatText(n / 10);
      assert t[|t| - 1] == DigitChar(n % 10);
    }
  }

  /** An integer's text read back to the integer. */
  lemma ReadIntText(k: int)
    ensures ReadInt(IntText(k)) == Some(k)
  {
    if k < 0 {
      var t := IntText(k);
      ReadNatText(-k);
      assert t[0] == '-';
      assert t[1..] == NatText(-k);
    } else {
      var t := NatText(k);
      ReadNatText(k);
      assert IsDigit(t[0]);
    }
  }

  /** Every status string reads back to its status, so the strings of two
      different statuses always differ. */
  lemma ReadMessageInvertsMessage(s: Status)
    ensures ReadMessage(Message(s)) == Some(s)
  {
    if s.EspressosLeft? {
      var t := Message(s);
      var digits := IntText(s.count);
      assert t[..|t| - |Suffix|] == digits;
      assert t[|t| - 1] == 't';
      assert "Add water"[8] == 'r' && "Descale needed"[13] == 'd';
      assert "Add beans and water"[18] == 'r' && "Add beans"[8] == 's';
      ReadIntText(s.count);
    }
  }

  /** Distinct statuses are shown as distinct strings. */
  lemma MessagesDistinct(s: Status, s': Status)
    requires s != s'
    ensures Message(s) != Message(s')
  {
    ReadMessageInvertsMessage(s);
    ReadMessageInvertsMessage(s');
  }
}

=== FILE: traces.dfy ===
/** Sequences of machine calls, and what stays true along them: the container
    bounds and the sign of the descale accumulator. */
module Traces {
  import opened Results
  import opened Settings
  import Beans
  import Water
  import opened Espresso
  import Display

  /** One call on the machine's public surface that can change it. */
  datatype Call =
    | AttachBeans(beansContainer: Beans.BeansContainer)
    | AttachWater(waterContainer: Water.WaterContainer)
    | AddBeansCall(spoons: int)
    | UseBeansCall(spoons: int)
    | AddWaterCall(litres: real)
    | UseWaterCall(litres: real)
    | DescaleCall
    | BrewCall(quantity: int)

  /** The machine after one call, whether the call returned or raised. */
  function Step(cfg: Config, m: EspressoMachine, call: Call): EspressoMachine
  {
    match call
    case AttachBeans(c) => SetBeansContainer(m, c)
    case AttachWater(c) => SetWaterContainer(m, c)
    case AddBeansCall(n) => AddBeans(m, n).machine
    case UseBeansCall(n) => UseBeans(m, n).machine
    case AddWaterCall(l) => AddWater(m, l).machine
    case UseWaterCall(l) => UseWater(m, l).machine
    case DescaleCall => Descale(cfg, m).machine
    case BrewCall(q) => MakeEspressos(cfg, m, q).machine
  }

  /** The machine after a sequence of calls, made in order. */
  function Run(cfg: Config, m: EspressoMachine, calls: seq<Call>): EspressoMachine
    decreases |calls|
  {
    if |calls| == 0 then m else Run(cfg, Step(cfg, m, calls[0]), calls[1..])
  }

  /** A call whose amounts are non-negative and whose attached container is
      within its bounds. */
  predicate Modest(call: Call)
  {
    match call
    case AttachBeans(c) => Beans.Valid(c)
    case AttachWater(c) => Water.Valid(c)
    case AddBeansCall(n) => 0 <= n
    case UseBeansCall(n) => 0 <= n
    case AddWaterCall(l) => 0.0 <= l
    case UseWaterCall(l) => 0.0 <= l
    case DescaleCall => true
    case BrewCall(q) => 0 <= q
  }

  /** Attached containers within their bounds, and an accumulator at or
      below zero. */
  predicate Healthy(m: EspressoMachine)
  {
    && (m.beans.Some? ==> Beans.Valid(m.beans.value))
    && (m.water.Some? ==> Water.Valid(m.water.value))
    && m.litresSinceLastDescale <= 0.0
  }

  /** One modest call keeps a healthy machine healthy: brewing only lowers the
      accumulator and descaling resets it to zero. */
  lemma StepKeepsHealthy(cfg: Config, m: EspressoMachine, call: Call)
    requires Sane(cfg) && Healthy(m) && Modest(call)
    ensures Healthy(Step(cfg, m, call))
  {
  }

  /** Every sequence of modest calls keeps a healthy machine healthy. */
  lemma {:induction false} RunKeepsHealthy(cfg: Config, m: EspressoMachine, calls: seq<Call>)
    requires Sane(cfg) && Healthy(m)
    requires forall i :: 0 <= i < |calls| ==> Modest(calls[i])
    ensures Healthy(Run(cfg, m, calls))
    decreases |calls|
  {
    if |calls| > 0 {
      StepKeepsHealthy(cfg, m, calls[0]);
      RunKeepsHealthy(cfg, Step(cfg, m, calls[0]), calls[1..]);
    }
  }

  /** From a new machine, modest calls never trip the brew guard: brewing can
      fail for want of beans, water or a container, never for want of a descale. */
  lemma {:induction false} BrewGuardNeverTrips(cfg: Config, mains: bool, calls: seq<Call>, q: int)
    requires Sane(cfg)
    requires forall i :: 0 <= i < |calls| ==> Modest(calls[i])
    ensures MakeEspressos(cfg, Run(cfg, Espresso.New(mains), calls), q).result != Err(NeedsDescale)
  {
    RunKeepsHealthy(cfg, Espresso.New(mains), calls);
  }

  /** From a new machine, modest calls never reach the status's descale branch,
      so "Descale needed" is never shown. */
  lemma {:induction false} DescaleNeverShown(cfg: Config, mains: bool, calls: seq<Call>)
    requires Sane(cfg)
    requires forall i :: 0 <= i < |calls| ==> Modest(calls[i])
    ensures !Display.DescaleBranch(cfg, Run(cfg, Espresso.New(mains), calls))
    ensures Display.GetStatus(cfg, Run(cfg, Espresso.New(mains), calls)) != Ok(Display.DescaleNeeded)
  {
    RunKeepsHealthy(cfg, Espresso.New(mains), calls);
  }
}

=== FILE: water.dfy ===
/** The water tank: a bounded store of litres. Litres are exact reals here,
    where the source uses floating point. */
module Water {
  import opened Results

  /** Capacity of a tank built without an argument. */
  const DefaultCapacity: real := 2.0

  /** A water tank: its capacity and the litres it holds. */
  datatype WaterContainer = WaterContainer(capacity: real, litres: real)

  /** The bounds the tank is meant to keep. */
  predicate Valid(c: WaterContainer)
  {
    0.0 <= c.litres <= c.capacity
  }

  /** Volume left before the tank is full. */
  function Space(c: WaterContainer): real
  {
    c.capacity - c.litres
  }

  /** A freshly built tank: it holds nothing, so all of its capacity is free. */
  function New(capacity: real := DefaultCapacity): (c: WaterContainer)
    ensures GetWater(c) == 0.0
    ensures Space(c) == capacity
    ensures Valid(c) <==> 0.0 <= capacity
  {
    WaterContainer(capacity, 0.0)
  }

  /** Adds `l` litres; refused when they do not fit in the volume left. */
  function AddWater(c: WaterContainer, l: real): (r: Result<WaterContainer>)
    ensures r.Ok? <==> l <= Space(c)
    ensures r.Err? ==> r.error == ContainerFull
    ensures r.Ok? ==> r.value.capacity == c.capacity && GetWater(r.value) == GetWater(c) + l
    ensures Valid(c) && 0.0 <= l && r.Ok? ==> Valid(r.value)
  {
    if l > c.capacity - c.litres then Err(ContainerFull)
    else Ok(c.(litres := c.litres + l))
  }

  /** Draws `l` litres and returns the volume LEFT in the tank afterwards, not
      the volume drawn. A request beyond the stock raises ContainerException. */
  function UseWater(c: WaterContainer, l: real): (r: Result<(WaterContainer, real)>)
    ensures r.Ok? <==> l <= GetWater(c)
    ensures r.Err? ==> r.error == NotEnough
    ensures r.Ok? ==> r.value.1 == GetWater(r.value.0)
    ensures r.Ok? ==> r.value.0.capacity == c.capacity && GetWater(r.value.0) == GetWater(c) - l
    ensures Valid(c) && 0.0 <= l && r.Ok? ==> Valid(r.value.0)
  {
    if l > c.litres then Err(NotEnough)
    else
      var drained := c.(litres := c.litres - l);
      Ok((drained, drained.litres))
  }

  /** The litres held; within the bounds whenever the tank is valid. */
  function GetWater(c: WaterContainer): (l: real)
    ensures Valid(c) ==> 0.0 <= l <= c.capacity
  {
    c.litres
  }

  /** Drawing what was just added restores the tank, and the value returned is
      the level before the add. */
  lemma AddThenUse(c: WaterContainer, l: real)
    requires 0.0 <= c.litres
    requires AddWater(c, l).Ok?
    ensures UseWater(AddWater(c, l).value, l) == Ok((c, GetWater(c)))
  {
  }

  /** Putting back what was just drawn restores the tank. */
  lemma UseThenAdd(c: WaterContainer, l: real)
    requires c.litres <= c.capacity
    requires UseWater(c, l).Ok?
    ensures AddWater(UseWater(c, l).value.0, l) == Ok(c)
  {
  }

  /** Without a sign check, a negative amount pushes a valid tank out of its
      bounds in either direction, so the bound lemmas need `0 <= l`. */
  lemma NegativeAmountsBreakBounds()
    ensures AddWater(New(DefaultCapacity), -1.0).Ok?
    ensures !Valid(AddWater(New(DefaultCapacity), -1.0).value)
    ensures UseWater(WaterContainer(DefaultCapacity, DefaultCapacity), -1.0).Ok?
    ensures !Valid(UseWater(WaterContainer(DefaultCapacity, DefaultCapacity), -1.0).value.0)
  {
  }
}
